=== FILE: README.md ===
# A Dafny model of the ARASE search client

The ARASE SDK is a TypeScript client for a remote search and extraction
service. All of its logic sits in one class, `AraseClient`. This project
models the decisions that class makes around the network call:

- **Construction** (module `Config`). The client resolves its API key, base
  URL and timeout from explicit options, the environment or defaults, using
  JavaScript `||`. It also decides whether to warn that the key is exposed in
  a browser.
- **The request path** (module `Gateway`). The client builds one POST request
  with a bearer `Authorization` header. Then it turns whatever `fetch`
  produced into either the parsed body or an `AraseAPIError`, following the
  `try`/`catch` in `request`.
- **The public methods** (modules `Adapters` and `Api`). `search` maps its
  seventeen camelCase options one-to-one onto snake_case wire keys.
  `extract` builds a fixed three-member body. The five category searches
  call `search` with fixed options. `Adapters` builds the bodies and `Api`
  sends them.

Supporting modules:

- `Js`: parsed JSON values, truthiness, `||`, and the fact that
  JSON.stringify leaves out members whose value is `undefined`.
- `Decimal`: how the status is rendered in `"HTTP <status>"`.
- `Bearer`: the header form from section 2.1 of RFC 6750.
- `WireNames`: camelCase to snake_case and back.
- `WireDecode`: a server-side reader of the posted body. It is the partner
  of the payload builders: reading a body back gives the original call.

The transport is a parameter of type `HttpRequest -> Outcome`. It maps the
built request to how the call ended: a response with a status and a parsed or
unreadable body, or a rejected fetch (a timeout abort is a rejection with an
error named `AbortError`). The environment is an injected lookup
`string -> Option<string>`. The presence of a browser `window` is a boolean.

A few behaviours of the client are easy to assume otherwise; the model
follows the code:

- The client does not check the query, so the model accepts any query,
  including the empty one.
- Each error field falls back on its own. The fallback applies when the body
  cannot be parsed, and also when the body parses but the field is missing
  or falsy.
- The fixed unknown-error text is used only for thrown values that are not
  `Error`s, so an `Error` with an empty message gives an empty message.
- The timer is cleared as soon as `fetch` resolves, so only a pending fetch
  can be aborted. Reading the body is never aborted, so a body that stalls
  leaves the call pending.

## Model

| member | source | states |
|---|---|---|
| Config.Construct | src/client.ts:60-87 | construction fails exactly when both the explicit key and ARASE_API_KEY are missing or empty; a built client has a non-empty key, a non-empty base URL and a non-zero timeout; the warning is raised exactly when a browser is present and `dangerouslyAllowBrowser` is not true |
| Config.ExplicitKeyWins | src/client.ts:63 | a non-empty explicit key is used whatever the environment holds |
| Config.EnvironmentKeyFallback | src/client.ts:63-70 | with no usable explicit key, a non-empty ARASE_API_KEY is used, otherwise construction fails with the missing-key error |
| Config.BrowserNeverDecides | src/client.ts:72-81 | the browser flag changes neither success nor the client built, only the warning |
| Config.DefaultOptionsNeedEnvironmentKey | src/client.ts:60-87 | `new AraseClient()` fails exactly when ARASE_API_KEY is missing or empty, with the bilingual missing-key message; otherwise the client holds that key, ARASE_BASE_URL or the default URL, and the 30000 ms timeout, and a browser always warns |
| Config.BaseUrlPrecedence | src/client.ts:84-85 | the base URL is the first non-empty of the option, ARASE_BASE_URL and `https://arase.masarat.sa/v1` |
| Config.TimeoutResolution | src/client.ts:86 | the timeout is the explicit value unless it is missing or 0, in which case it is 30000 |
| Gateway.BuildRequest | src/client.ts:103-111 | the request is a POST to base URL followed by the endpoint, with exactly two headers, `Content-Type: application/json` and `Authorization: Bearer <key>`, the stringified payload, and the client's timeout as the delay handed to `setTimeout` |
| Gateway.AuthorizationCarriesKey | src/client.ts:107 | for a key that does not start with a space, the Authorization header is well formed under RFC 6750 exactly when the key is a b64token, and then the key is read back from it |
| Gateway.HttpError | src/client.ts:117-121 | an HTTP error keeps the response status, and the message and code handed to the error constructor are truthy |
| Gateway.Catch | src/client.ts:125-147 | an error the client built passes through unchanged; a foreign error gets status 408 exactly when it is an `AbortError`, and 0 otherwise |
| Gateway.ClassifyAsWritten | src/client.ts:112-147 | as written: the call succeeds exactly on an ok response with a readable body, which is returned unchanged; a response that is not ok fails with its own status unless its body is JSON `null`, which gives NETWORK_ERROR with status 0; a rejected fetch fails with status 0 or 408 |
| Gateway.Classify | src/client.ts:112-147 | with a `null` error body read like `{}`: the call succeeds exactly on an ok response with a readable body, which is returned unchanged; a response that is not ok always fails with its own status; a rejected fetch fails with status 0 or 408 |
| Gateway.Send | src/client.ts:95-148 | the result is the body of the transport's answer to the built request exactly when that answer is an ok, readable response; an answer that is not ok fails with its own status |
| Gateway.HttpErrorFieldsAsWritten | src/client.ts:115-122 | as written, for a response that is not ok and a body other than `null`, the message is the body's truthy `message` else `HTTP <status>`, and the code is the body's truthy `code` else `UNKNOWN_ERROR` |
| Gateway.HttpErrorFields | src/client.ts:115-122 | the same fields for every body, `null` included, in the corrected classifier |
| Gateway.FallbacksIndependent | src/client.ts:118-119 | in the corrected classifier, the code depends only on the body's `code` member and the message only on its `message` member |
| Gateway.UnreadableErrorBody | src/client.ts:116 | an unreadable error body behaves exactly like `{}` |
| Gateway.FallbackMessageNamesStatus | src/client.ts:118 | in the corrected classifier, when the body has no truthy message (missing, `""`, `0`, `false` or `null`), the status can be parsed back out of the fallback message |
| Gateway.UnreadableOkBody | src/client.ts:124-146 | an ok response whose body cannot be read, for a reason other than an `AbortError`, fails with NETWORK_ERROR and status 0; the message is the reading error's message when the reason is an `Error`, and the fixed unknown-error text when it is not |
| Gateway.RejectedFetch | src/client.ts:132-146 | an abort gives TIMEOUT/408 with the fixed message; another `Error` gives NETWORK_ERROR/0 with its message; a thrown non-Error gives NETWORK_ERROR/0 with the fixed unknown-error message |
| Gateway.NullErrorBodyAsWritten | src/client.ts:116-118 | as written, an error response whose body is JSON `null` ends as NETWORK_ERROR with status 0, unlike the corrected classifier |
| Gateway.NullErrorBodyCorrected | src/client.ts:115-122 | the corrected classifier gives a null error body the fallbacks of `{}` and agrees with Gateway.ClassifyAsWritten on every other outcome |
| Gateway.DependsOnlyOnBuiltRequest | src/client.ts:99-113 | the result depends on the transport only through its answer to the one request built |
| Js.Stringify | src/client.ts:109 | the wire body keeps exactly the members whose value is not `undefined`, with their values unchanged |
| Decimal.NatToString | src/client.ts:118 | a status is rendered as a non-empty string of decimal digits |
| Decimal.IntRoundTrip | src/client.ts:118 | every integer is read back from its rendering |
| Bearer.CredentialsWellFormedIff | src/client.ts:107 | for a key that does not start with a space, `Bearer <key>` parses under RFC 6750 exactly when the key is a b64token, and yields the key |
| WireNames.CamelSnakeRoundTrip | src/client.ts:176-195 | a name without underscores is recovered from its snake_case key |
| WireNames.SnakeCaseInjective | src/client.ts:176-195 | two such names never share a snake_case key |
| WireNames.SnakeMatchIff | src/client.ts:176-195 | the lock-step check of a name against a key holds exactly when the key is the name's snake_case image |
| Adapters.SearchKeysAreSnakeCase | src/client.ts:178-194 | each of the seventeen wire keys of a search is the snake_case image of the SearchOptions field it carries |
| Adapters.SearchPayload | src/client.ts:176-195 | the search body carries the query and no `mode`, so it is never read as an extraction |
| Adapters.SearchPayloadKeys | src/client.ts:176-195 | a search payload holds `query` and exactly the seventeen option keys |
| Adapters.ExtractPayload | src/client.ts:221-225 | the extraction body holds exactly `mode: "extract"`, the URL and the summary toggle with the value given, which is undefined exactly when it was not given |
| Api.Search | src/client.ts:172-196 | `search` posts one request to `/search` whose body the server reads back as exactly this query and these options, and returns the body of an ok, readable answer |
| Api.Extract | src/client.ts:217-226 | `extract` posts exactly `mode: "extract"`, the URL and, when set, `include_summary` to `/search`; the server reads it back as exactly this extraction |
| Api.SearchImages | src/client.ts:236-241 | `searchImages` posts exactly the query, `include_images: true` and a count that defaults to 10 only when none was given, so an explicit 0 stays 0 |
| Api.SearchVideos | src/client.ts:251-256 | the same for `searchVideos` with `include_videos` |
| Api.SearchNews | src/client.ts:266-271 | the same for `searchNews` with `include_news` |
| Api.SearchPlaces | src/client.ts:291-303 | `searchPlaces` posts the query, `include_places: true`, a count where a missing or zero count becomes 10, and `user_location` exactly when a location is given |
| Api.SearchScholar | src/client.ts:319-325 | the same as `searchImages` for `searchScholar` with `include_scholar`, plus `topic: "academic"` |
| WireDecode.SearchRoundTrip | src/client.ts:176-195 | the server reads back exactly the query and options of a search: nothing is lost, no option lands under another's key, and an unset option stays unset |
| WireDecode.ExtractRoundTrip | src/client.ts:221-225 | the server reads back exactly the URL and summary toggle of an extraction, told apart from a search by `mode` |
| WireDecode.AdvancedRoundTrip | src/client.ts:194 | the nested `options` block reads back unchanged, with unset toggles left out |

## Left out

- The `fetch` call, `AbortController`, `setTimeout` and `clearTimeout` are not modelled, and neither is real timing. The transport parameter stands for them. The client's timeout reaches it as the request's `abortAfter`, the delay handed to `setTimeout`.
- `getEnvVar`'s check for `process` is not modelled; it is the injected `Env` lookup. The `typeof window` check is the `isBrowser` flag. `console.warn` is reduced to the `warned` flag, because its text has no effect on control flow.
- The response types in src/types.ts hold opaque server data with floating-point fields. A response body is an abstract `Json`, returned unchanged.
- Numbers: `timeout`, `maxResults` and `maxSteps` are integers. Fractional values, NaN (falsy like 0) and the infinities are not modelled. Latitude and longitude are `real`, passed through untouched; JSON.stringify would write a NaN or infinite `lat` or `lng` as `null`, and those values are not modelled.
- Gateway.ApiError: `message` holds the value handed to the `AraseAPIError` constructor, not its rendering by `String()` in the real `Error`. Two consequences are not modelled. A truthy `message` such as `[]` or `[null]` renders as `""`, so the thrown error's message is empty. An object `message` with a `toString` member, as in a 500 with body `{"message":{"toString":1}}`, makes the constructor throw a TypeError inside the `try`, which ends as NETWORK_ERROR with status 0. `code` is kept raw, as in the source.
- Gateway.ClassifyAsWritten: models the `null` error body but not the `String()` failure under Gateway.ApiError: as written, a non-ok response with a body such as `{"message":{"toString":1}}` also ends as NETWORK_ERROR with status 0, while this member keeps its status.
- Gateway.Classify: describes the corrected classifier, not the code as written. As written, a non-ok response whose body is JSON `null` gives NETWORK_ERROR/0 (Gateway.ClassifyAsWritten), and so does the `toString` case above, which neither classifier models.
- Gateway.Send: uses the corrected classifier, so its status promise does not hold for the two inputs named under Gateway.Classify. The members of `Api` promise only what both classifiers share.
- Gateway.HttpErrorFields: holds for the corrected classifier. For the code as written it holds for every body except `null` and a `message` that `String()` cannot convert (Gateway.HttpErrorFieldsAsWritten).
- Gateway.HttpErrorFieldsAsWritten: does not model the `String()` failure under Gateway.ApiError. As written, a non-ok response with a body such as `{"message":{"toString":1}}` ends as NETWORK_ERROR with status 0, while this lemma gives it the response status and the object as its message.
- Gateway.FallbacksIndependent: holds for the corrected classifier only. As written, `null` and `{}` have the same missing `code` but give different codes.
- Gateway.FallbackMessageNamesStatus: holds for the corrected classifier only. As written, a `null` body yields the TypeError text instead of `HTTP <status>`.
- Gateway.NullErrorBodyAsWritten: the TypeError text is V8's. Other engines word it differently, but every engine gives a NETWORK_ERROR with status 0.
- Js.ReadMember: only the names `code` and `message` are modelled. No prototype a JSON.parse result inherits from (Object, Array, String, Number, Boolean) defines either, so reading them from a non-object gives `undefined`.
- Gateway.BuildRequest: `abortAfter` is the client's timeout unchanged, but `setTimeout` does not always wait that long. Node runs a delay below 1 or above 2147483647 ms after 1 ms. Browsers convert the delay to a 32-bit integer, which wraps, and treat a negative result as 0. A client built with a negative timeout, or one above 2147483647 ms, therefore aborts every fetch at once, and each call ends as TIMEOUT/408. No timeout value disables the abort. The model does not compute this effective delay.
- A response whose body never finishes arriving leaves `request` pending forever, because the timer is already cleared. An `Outcome` always describes a call that settled, so such a call is not modelled.
- `null` passed where the TypeScript types allow only a value or `undefined` is not modelled.
- The `name` and stack of `AraseAPIError` are not modelled.
- Bearer.ParseCredentials: only the capitalisation `Bearer` is accepted. The scheme name is case-insensitive in HTTP, but the client only ever writes `Bearer`.
- src/index.ts only re-exports, so it is not part of this model.

## Findings

| source | as written | input that shows it | evidently intended | confidence | as-written member | corrected member |
|---|---|---|---|---|---|---|
| src/client.ts:116-118 | the parsed error body is read as `error.message` without a null check, so a JSON `null` body throws a TypeError inside the `try`; the `catch` turns it into NETWORK_ERROR with status 0 | an HTTP 500 response whose body is `null` | the same result as for `{}`: message `HTTP 500`, code `UNKNOWN_ERROR`, status 500 | medium; not executed | Gateway.NullErrorBodyAsWritten | Gateway.NullErrorBodyCorrected |

The rest of the model uses the corrected classifier `Gateway.Classify`. The code as written is `Gateway.ClassifyAsWritten`.

=== FILE: adapters.dfy ===
/** What the public methods of the client post: the bodies of `search` and
    `extract`, and the fixed options the five category searches pass to
    `search`. */
module Adapters {
  import opened Wrappers
  import opened Js
  import opened Options
  import opened WireNames

  /** Both searches and extractions are posted here; the `mode` member tells
      them apart on the server. */
  const SearchEndpoint: string := "/search"

  /** The default result count of the category searches. */
  const DefaultMaxResults: int := 10

  /** The options of a search, by their names in SearchOptions. */
  const SearchOptionNames: seq<string> := [
    "searchDepth", "maxResults", "includeAnswer", "includeRawContent",
    "includeImages", "includeVideos", "includeNews", "includeMaps",
    "includePlaces", "includeShopping", "includeScholar", "includeStocks",
    "includeWeather", "topic", "maxSteps", "userLocation", "options"]

  /** The members a search payload carries besides `query`, in the same order. */
  const SearchWireKeys: seq<string> := [
    "search_depth", "max_results", "include_answer", "include_raw_content",
    "include_images", "include_videos", "include_news", "include_maps",
    "include_places", "include_shopping", "include_scholar", "include_stocks",
    "include_weather", "topic", "max_steps", "user_location", "options"]

  function EncodeBool(b: bool): Json {
    JBool(b)
  }

  function EncodeInt(n: int): Json {
    JNum(n as real)
  }

  function EncodeDepth(d: SearchDepth): Json {
    match d
    case Basic => JStr("basic")
    case Advanced => JStr("advanced")
    case Deep => JStr("deep")
  }

  function EncodeTopic(t: Topic): Json {
    match t
    case General => JStr("general")
    case News => JStr("news")
    case Academic => JStr("academic")
  }

  function EncodeLocation(l: Location): Json {
    JObj(map["lat" := JNum(l.lat), "lng" := JNum(l.lng)])
  }

  /** A nested block is written by JSON.stringify like the payload itself:
      unset members are left out. */
  function EncodeSummary(s: SummaryOption): Json {
    JObj(Stringify(map["summary" := MapOption(s.summary, EncodeBool)]))
  }

  function EncodeAdvanced(a: AdvancedOptions): Json {
    JObj(Stringify(map[
      "stocks" := MapOption(a.stocks, EncodeSummary),
      "weather" := MapOption(a.weather, EncodeSummary)]))
  }

  /** The body of `search(query, options)`. It carries the query and never a
      `mode`, so the server never takes it for an extraction. */
  function SearchPayload(query: string, o: SearchOptions): (p: Payload)
    ensures "query" in p && p["query"] == Some(JStr(query))
    ensures "mode" !in p
  {
    map[
      "query" := Some(JStr(query)),
      "search_depth" := MapOption(o.searchDepth, EncodeDepth),
      "max_results" := MapOption(o.maxResults, EncodeInt),
      "include_answer" := MapOption(o.includeAnswer, EncodeBool),
      "include_raw_content" := MapOption(o.includeRawContent, EncodeBool),
      "include_images" := MapOption(o.includeImages, EncodeBool),
      "include_videos" := MapOption(o.includeVideos, EncodeBool),
      "include_news" := MapOption(o.includeNews, EncodeBool),
      "include_maps" := MapOption(o.includeMaps, EncodeBool),
      "include_places" := MapOption(o.includePlaces, EncodeBool),
      "include_shopping" := MapOption(o.includeShopping, EncodeBool),
      "include_scholar" := MapOption(o.includeScholar, EncodeBool),
      "include_stocks" := MapOption(o.includeStocks, EncodeBool),
      "include_weather" := MapOption(o.includeWeather, EncodeBool),
      "topic" := MapOption(o.topic, EncodeTopic),
      "max_steps" := MapOption(o.maxSteps, EncodeInt),
      "user_location" := MapOption(o.userLocation, EncodeLocation),
      "options" := MapOption(o.options, EncodeAdvanced)]
  }

  /** The body of `extract(url, options)`: the mode, the URL and the summary
      toggle as given, which is undefined exactly when it was not given. */
  function ExtractPayload(url: string, o: ExtractOptions): (p: Payload)
    ensures p.Keys == {"mode", "url", "include_summary"}
    ensures p["mode"] == Some(JStr("extract")) && p["url"] == Some(JStr(url))
    ensures p["include_summary"].Some? <==> o.includeSummary.Some?
    ensures o.includeSummary.Some? ==> p["include_summary"] == Some(JBool(o.includeSummary.value))
  {
    map[
      "mode" := Some(JStr("extract")),
      "url" := Some(JStr(url)),
      "include_summary" := MapOption(o.includeSummary, EncodeBool)]
  }

  /** The options `searchImages(query, maxResults = 10)` passes to `search`:
      a default parameter replaces only a missing count, so 0 stays 0. */
  function ImagesOptions(maxResults: Option<int>): SearchOptions {
    NoSearchOptions.(includeImages := Some(true), maxResults := Some(maxResults.GetOr(DefaultMaxResults)))
  }

  function VideosOptions(maxResults: Option<int>): SearchOptions {
    NoSearchOptions.(includeVideos := Some(true), maxResults := Some(maxResults.GetOr(DefaultMaxResults)))
  }

  function NewsOptions(maxResults: Option<int>): SearchOptions {
    NoSearchOptions.(includeNews := Some(true), maxResults := Some(maxResults.GetOr(DefaultMaxResults)))
  }

  function ScholarOptions(maxResults: Option<int>): SearchOptions {
    NoSearchOptions.(includeScholar := Some(true), topic := Some(Academic), maxResults := Some(maxResults.GetOr(DefaultMaxResults)))
  }

  /** The options `searchPlaces` passes to `search`: the count goes through
      `||`, so a count of 0 is replaced as well. */
  function PlacesSearchOptions(p: PlacesOptions): SearchOptions {
    NoSearchOptions.(
      includePlaces := Some(true),
      maxResults := Some(OrElseNumber(p.maxResults, DefaultMaxResults)),
      userLocation := p.userLocation)
  }

  /** The lock-step check of one option name against its wire key, for
      the options from searchDepth to includeRawContent. */
  lemma OptionKeysSnakeA(i: nat)
    requires 0 <= i < 4
    ensures SnakeMatch(SearchOptionNames[i], 0, SearchWireKeys[i], 0)
  {
    if i == 0 {
    } else if i == 1 {
    } else if i == 2 {
    } else {
      assert SnakeMatch("includeRawContent", 9, "include_raw_content", 10);
    }
  }

  /** The same check from includeImages to includeMaps. */
  lemma OptionKeysSnakeB(i: nat)
    requires 4 <= i < 8
    ensures SnakeMatch(SearchOptionNames[i], 0, SearchWireKeys[i], 0)
  {
    if i == 4 {
    } else if i == 5 {
    } else if i == 6 {
    } else {
    }
  }

  /** The same check from includePlaces to includeStocks. */
  lemma OptionKeysSnakeC(i: nat)
    requires 8 <= i < 12
    ensures SnakeMatch(SearchOptionNames[i], 0, SearchWireKeys[i], 0)
  {
    if i == 8 {
    } else if i == 9 {
    } else if i == 10 {
    } else {
    }
  }

  /** The same check from includeWeather to options. */
  lemma OptionKeysSnakeD(i: nat)
    requires 12 <= i < 17
    ensures SnakeMatch(SearchOptionNames[i], 0, SearchWireKeys[i], 0)
  {
    if i == 12 {
    } else if i == 13 {
    } else if i == 14 {
    } else if i == 15 {
    } else {
    }
  }

  /** A search payload holds `query` and exactly the seventeen option keys. */
  lemma SearchPayloadKeys(query: string, o: SearchOptions)
    ensures SearchPayload(query, o).Keys == {"query"} + set k | k in SearchWireKeys
  {
  }

  /** Each of the seventeen wire keys of a search is the snake_case image of
      the option it carries. */
  lemma SearchKeysAreSnakeCase()
    ensures |SearchOptionNames| == |SearchWireKeys| == 17
    ensures forall i :: 0 <= i < 17 ==> SearchWireKeys[i] == SnakeCase(SearchOptionNames[i])
  {
    forall i | 0 <= i < 17
      ensures SearchWireKeys[i] == SnakeCase(SearchOptionNames[i])
    {
      if i < 4 {
        OptionKeysSnakeA(i);
      } else if i < 8 {
        OptionKeysSnakeB(i);
      } else if i < 12 {
        OptionKeysSnakeC(i);
      } else {
        OptionKeysSnakeD(i);
      }
      SnakeMatchIff(SearchOptionNames[i], 0, SearchWireKeys[i], 0);
      assert SearchWireKeys[i][0..] == SearchWireKeys[i];
      assert SearchOptionNames[i][0..] == SearchOptionNames[i];
    }
  }

  /** The body of `searchImages` once stringified. */
  lemma ImagesWire(query: string, maxResults: Option<int>)
    ensures Stringify(SearchPayload(query, ImagesOptions(maxResults))) ==
      map["query" := JStr(query), "include_images" := JBool(true),
          "max_results" := JNum(maxResults.GetOr(10) as real)]
  {
  }

  lemma VideosWire(query: string, maxResults: Option<int>)
    ensures Stringify(SearchPayload(query, VideosOptions(maxResults))) ==
      map["query" := JStr(query), "include_videos" := JBool(true),
          "max_results" := JNum(maxResults.GetOr(10) as real)]
  {
  }

  lemma NewsWire(query: string, maxResults: Option<int>)
    ensures Stringify(SearchPayload(query, NewsOptions(maxResults))) ==
      map["query" := JStr(query), "include_news" := JBool(true),
          "max_results" := JNum(maxResults.GetOr(10) as real)]
  {
  }

  lemma ScholarWire(query: string, maxResults: Option<int>)
    ensures Stringify(SearchPayload(query, ScholarOptions(maxResults))) ==
      map["query" := JStr(query), "include_scholar" := JBool(true), "topic" := JStr("academic"),
          "max_results" := JNum(maxResults.GetOr(10) as real)]
  {
  }

  /** The body of `searchPlaces` without a location. */
  lemma PlacesWire(query: string, maxResults: Option<int>)
    ensures var count := if maxResults.Some? && maxResults.value != 0 then maxResults.value else 10;
      Stringify(SearchPayload(query, PlacesSearchOptions(PlacesOptions(maxResults, None)))) ==
        map["query" := JStr(query), "include_places" := JBool(true), "max_results" := JNum(count as real)]
  {
  }

  /** The body of `searchPlaces` with a location. */
  lemma PlacesNearWire(query: string, maxResults: Option<int>, at: Location)
    ensures var count := if maxResults.Some? && maxResults.value != 0 then maxResults.value else 10;
      Stringify(SearchPayload(query, PlacesSearchOptions(PlacesOptions(maxResults, Some(at))))) ==
        map["query" := JStr(query), "include_places" := JBool(true), "max_results" := JNum(count as real),
            "user_location" := JObj(map["lat" := JNum(at.lat), "lng" := JNum(at.lng)])]
  {
  }
}

=== FILE: api.dfy ===
/** The public methods of the client. `search` and `extract` post their body
    to the search endpoint through the one request path; the five category
    searches are `search` with fixed options, and their contracts give the
    exact body each one posts. */
module Api {
  import opened Wrappers
  import opened Js
  import opened Options
  import opened Config
  import opened Gateway
  import opened Adapters
  import opened WireDecode

  /** `search(query, options)`: one POST to the search endpoint, whose body
      the server reads back as exactly this query and these options. */
  function Search(c: Client, query: string, o: SearchOptions, transport: HttpRequest -> Outcome): (r: Result<Json, ApiError>)
    ensures var req := BuildRequest(c, SearchEndpoint, SearchPayload(query, o));
      DecodeRequest(req.body) == Some(SearchCall(query, o)) && Delivers(r, transport(req))
  {
    SearchRoundTrip(query, o);
    Send(c, SearchEndpoint, SearchPayload(query, o), transport)
  }

  /** `extract(url, options)`: one POST to the same endpoint, carrying the
      mode, the URL and, when set, the summary toggle; the server reads it
      back as exactly this extraction. */
  function Extract(c: Client, url: string, o: ExtractOptions, transport: HttpRequest -> Outcome): (r: Result<Json, ApiError>)
    ensures var req := BuildRequest(c, SearchEndpoint, ExtractPayload(url, o));
      && req.body == (if o.includeSummary.Some? then
           map["mode" := JStr("extract"), "url" := JStr(url), "include_summary" := JBool(o.includeSummary.value)]
         else
           map["mode" := JStr("extract"), "url" := JStr(url)])
      && DecodeRequest(req.body) == Some(ExtractCall(url, o))
      && Delivers(r, transport(req))
  {
    ExtractRoundTrip(url, o);
    Send(c, SearchEndpoint, ExtractPayload(url, o), transport)
  }

  /** `searchImages` posts the query, the images toggle and a count that
      defaults to 10 only when none was given, so an explicit 0 stays 0. */
  function SearchImages(c: Client, query: string, maxResults: Option<int>, transport: HttpRequest -> Outcome): (r: Result<Json, ApiError>)
    ensures var req := BuildRequest(c, SearchEndpoint, SearchPayload(query, ImagesOptions(maxResults)));
      && req.body == map["query" := JStr(query), "include_images" := JBool(true),
                         "max_results" := JNum(maxResults.GetOr(10) as real)]
      && Delivers(r, transport(req))
  {
    ImagesWire(query, maxResults);
    Search(c, query, ImagesOptions(maxResults), transport)
  }

  function SearchVideos(c: Client, query: string, maxResults: Option<int>, transport: HttpRequest -> Outcome): (r: Result<Json, ApiError>)
    ensures var req := BuildRequest(c, SearchEndpoint, SearchPayload(query, VideosOptions(maxResults)));
      && req.body == map["query" := JStr(query), "include_videos" := JBool(true),
                         "max_results" := JNum(maxResults.GetOr(10) as real)]
      && Delivers(r, transport(req))
  {
    VideosWire(query, maxResults);
    Search(c, query, VideosOptions(maxResults), transport)
  }

  function SearchNews(c: Client, query: string, maxResults: Option<int>, transport: HttpRequest -> Outcome): (r: Result<Json, ApiError>)
    ensures var req := BuildRequest(c, SearchEndpoint, SearchPayload(query, NewsOptions(maxResults)));
      && req.body == map["query" := JStr(query), "include_news" := JBool(true),
                         "max_results" := JNum(maxResults.GetOr(10) as real)]
      && Delivers(r, transport(req))
  {
    NewsWire(query, maxResults);
    Search(c, query, NewsOptions(maxResults), transport)
  }

  /** `searchPlaces` posts the query, the places toggle, a count where a
      missing or zero count becomes 10, and the location when one is given. */
  function SearchPlaces(c: Client, query: string, p: PlacesOptions, transport: HttpRequest -> Outcome): (r: Result<Json, ApiError>)
    ensures var count := if p.maxResults.Some? && p.maxResults.value != 0 then p.maxResults.value else 10;
      var near := map["query" := JStr(query), "include_places" := JBool(true), "max_results" := JNum(count as real)];
      var req := BuildRequest(c, SearchEndpoint, SearchPayload(query, PlacesSearchOptions(p)));
      && req.body == (if p.userLocation.Some? then
           near["user_location" := JObj(map["lat" := JNum(p.userLocation.value.lat), "lng" := JNum(p.userLocation.value.lng)])]
         else near)
      && Delivers(r, transport(req))
  {
    if p.userLocation.Some? then
      PlacesNearWire(query, p.maxResults, p.userLocation.value);
      Search(c, query, PlacesSearchOptions(p), transport)
    else
      PlacesWire(query, p.maxResults);
      Search(c, query, PlacesSearchOptions(p), transport)
  }

  /** `searchScholar` also fixes the topic to "academic". */
  function SearchScholar(c: Client, query: string, maxResults: Option<int>, transport: HttpRequest -> Outcome): (r: Result<Json, ApiError>)
    ensures var req := BuildRequest(c, SearchEndpoint, SearchPayload(query, ScholarOptions(maxResults)));
      && req.body == map["query" := JStr(query), "include_scholar" := JBool(true), "topic" := JStr("academic"),
                         "max_results" := JNum(maxResults.GetOr(10) as real)]
      && Delivers(r, transport(req))
  {
    ScholarWire(query, maxResults);
    Search(c, query, ScholarOptions(maxResults), transport)
  }
}

=== FILE: bearer.dfy ===
/** The Authorization header form of section 2.1 of RFC 6750:
        credentials = "Bearer" 1*SP b64token
        b64token    = 1*( ALPHA / DIGIT / "-" / "." / "_" / "~" / "+" / "/" ) *"="
    The client writes "Bearer " followed by its API key and never checks the
    key's syntax; this module says when the result is well formed. */
module Bearer {
  import opened Wrappers

  const Scheme: string := "Bearer"

  predicate IsTokenChar(c: char) {
    || 'A' <= c <= 'Z'
    || 'a' <= c <= 'z'
    || '0' <= c <= '9'
    || c == '-' || c == '.' || c == '_' || c == '~' || c == '+' || c == '/'
  }

  /** The number of '=' characters that end `s`. */
  function TrailingPad(s: string): (n: nat)
    ensures n <= |s|
    ensures forall i :: |s| - n <= i < |s| ==> s[i] == '='
    ensures n < |s| ==> s[|s| - n - 1] != '='
    decreases |s|
  {
    if 0 < |s| && s[|s| - 1] == '=' then TrailingPad(s[..|s| - 1]) + 1 else 0
  }

  predicate IsB64Token(s: string) {
    var body := s[..|s| - TrailingPad(s)];
    0 < |body| && forall i :: 0 <= i < |body| ==> IsTokenChar(body[i])
  }

  /** The header value the client sends for `key`. */
  function Credentials(key: string): string {
    Scheme + " " + key
  }

  /** `s` without its leading spaces. */
  function DropSpaces(s: string): (r: string)
    ensures |r| <= |s|
    ensures r == s[|s| - |r|..]
    ensures 0 < |r| ==> r[0] != ' '
    ensures forall i :: 0 <= i < |s| - |r| ==> s[i] == ' '
    decreases |s|
  {
    if 0 < |s| && s[0] == ' ' then DropSpaces(s[1..]) else s
  }

  /** Reads the token out of a header value of the RFC 6750 form. */
  function ParseCredentials(h: string): Option<string> {
    if |Scheme| < |h| && h[..|Scheme|] == Scheme then
      var rest := h[|Scheme|..];
      var token := DropSpaces(rest);
      if |token| < |rest| && IsB64Token(token) then Some(token) else None
    else None
  }

  /** For a key that does not start with a space, the header the client
      writes is well formed exactly when the key is a b64token, and then the
      token read back is the key itself. */
  lemma CredentialsWellFormedIff(key: string)
    requires key == [] || key[0] != ' '
    ensures ParseCredentials(Credentials(key)) == (if IsB64Token(key) then Some(key) else None)
  {
    var h := Credentials(key);
    assert h[..|Scheme|] == Scheme;
    assert h[|Scheme|..] == [' '] + key;
    assert DropSpaces([' '] + key) == DropSpaces(key);
  }
}

=== FILE: config.dfy ===
/** Construction of the client: where the API key, the base URL and the
    timeout come from, and when the browser warning is raised. The process
    environment is an injected lookup and the presence of a browser `window`
    an injected flag. */
module Config {
  import opened Wrappers
  import opened Js
  import opened Options

  const ApiKeyVariable: string := "ARASE_API_KEY"
  const BaseUrlVariable: string := "ARASE_BASE_URL"
  const DefaultBaseUrl: string := "https://arase.masarat.sa/v1"
  const DefaultTimeout: int := 30000

  const MissingKeyMessage: string :=
    "API key is required. Pass it as an option or set ARASE_API_KEY environment variable.\n" +
    "مفتاح API مطلوب. قم بتمريره كخيار أو قم بتعيين متغير البيئة ARASE_API_KEY."

  /** Environment lookup: the value of a variable, or `undefined` when it is
      unset or the runtime has no process environment. */
  type Env = string -> Option<string>

  /** The resolved configuration a client holds. */
  datatype Client = Client(apiKey: string, baseUrl: string, timeout: int)

  datatype ConfigError = MissingApiKey {
    function Message(): string {
      MissingKeyMessage
    }
  }

  /** A constructed client, and whether construction printed the warning that
      the key is exposed in a browser. */
  datatype Constructed = Constructed(client: Client, warned: bool)

  /** `new AraseClient(options)`. */
  function Construct(options: ClientOptions, env: Env, isBrowser: bool): (r: Result<Constructed, ConfigError>)
    ensures r.Failure? <==> !TruthyText(options.apiKey) && !TruthyText(env(ApiKeyVariable))
    ensures r.Success? ==> r.value.client.apiKey != ""
    ensures r.Success? ==> r.value.client.baseUrl != ""
    ensures r.Success? ==> r.value.client.timeout != 0
    ensures r.Success? ==>
      (r.value.warned <==> isBrowser && options.dangerouslyAllowBrowser != Some(true))
  {
    var apiKey := OrText(options.apiKey, env(ApiKeyVariable));
    if !TruthyText(apiKey) then
      Failure(MissingApiKey)
    else
      var warned := isBrowser && !(options.dangerouslyAllowBrowser == Some(true));
      var baseUrl := OrElseText(OrText(options.baseUrl, env(BaseUrlVariable)), DefaultBaseUrl);
      var timeout := OrElseNumber(options.timeout, DefaultTimeout);
      Success(Constructed(Client(apiKey.value, baseUrl, timeout), warned))
  }

  /** A non-empty explicit key is used whatever the environment holds. */
  lemma ExplicitKeyWins(options: ClientOptions, env: Env, isBrowser: bool)
    requires TruthyText(options.apiKey)
    ensures Construct(options, env, isBrowser).Success?
    ensures Construct(options, env, isBrowser).value.client.apiKey == options.apiKey.value
  {
  }

  /** A missing or empty explicit key falls through to ARASE_API_KEY; when
      that is missing or empty too, construction fails. */
  lemma EnvironmentKeyFallback(options: ClientOptions, env: Env, isBrowser: bool)
    requires !TruthyText(options.apiKey)
    ensures TruthyText(env(ApiKeyVariable)) ==>
      Construct(options, env, isBrowser).Success? &&
      Construct(options, env, isBrowser).value.client.apiKey == env(ApiKeyVariable).value
    ensures !TruthyText(env(ApiKeyVariable)) ==>
      Construct(options, env, isBrowser) == Failure(MissingApiKey)
  {
  }

  /** Whether a browser is present changes only the warning, never the
      outcome of construction or the client built. */
  lemma BrowserNeverDecides(options: ClientOptions, env: Env)
    ensures Construct(options, env, true).Success? == Construct(options, env, false).Success?
    ensures Construct(options, env, true).Success? ==>
      Construct(options, env, true).value.client == Construct(options, env, false).value.client
    ensures Construct(options, env, false).Success? ==> !Construct(options, env, false).value.warned
  {
  }

  /** The base URL is the first non-empty of the explicit option,
      ARASE_BASE_URL and the production default. */
  lemma BaseUrlPrecedence(options: ClientOptions, env: Env, isBrowser: bool)
    requires Construct(options, env, isBrowser).Success?
    ensures var url := Construct(options, env, isBrowser).value.client.baseUrl;
      if TruthyText(options.baseUrl) then url == options.baseUrl.value
      else if TruthyText(env(BaseUrlVariable)) then url == env(BaseUrlVariable).value
      else url == DefaultBaseUrl
  {
  }

  /** `new AraseClient()`: with no options, construction depends on
      ARASE_API_KEY alone. Without it, construction fails with the bilingual
      missing-key message; with it, the base URL comes from ARASE_BASE_URL or
      the default, the timeout is 30000, and a browser always warns. */
  lemma DefaultOptionsNeedEnvironmentKey(env: Env, isBrowser: bool)
    ensures Construct(NoClientOptions, env, isBrowser).Failure? <==> !TruthyText(env(ApiKeyVariable))
    ensures !TruthyText(env(ApiKeyVariable)) ==>
      Construct(NoClientOptions, env, isBrowser).error.Message() == MissingKeyMessage
    ensures TruthyText(env(ApiKeyVariable)) ==>
      var url := if TruthyText(env(BaseUrlVariable)) then env(BaseUrlVariable).value else DefaultBaseUrl;
      Construct(NoClientOptions, env, isBrowser).value ==
        Constructed(Client(env(ApiKeyVariable).value, url, DefaultTimeout), isBrowser)
  {
  }

  /** The timeout is the explicit value unless it is missing or zero, in
      which case it is 30000 milliseconds. */
  lemma TimeoutResolution(options: ClientOptions, env: Env, isBrowser: bool)
    requires Construct(options, env, isBrowser).Success?
    ensures var t := Construct(options, env, isBrowser).value.client.timeout;
      t == (if options.timeout == None || options.timeout == Some(0) then DefaultTimeout else options.timeout.value)
  {
  }
}

=== FILE: decimal.dfy ===
/** Decimal rendering of an integer, as a JavaScript template literal
    renders the HTTP status in the fallback message "HTTP <status>", and the
    parser that reads it back. */
module Decimal {
  import opened Wrappers

  predicate IsDigit(c: char) {
    '0' <= c <= '9'
  }

  predicate AllDigits(s: string) {
    forall i :: 0 <= i < |s| ==> IsDigit(s[i])
  }

  function DigitChar(d: int): char
    requires 0 <= d < 10
  {
    ('0' as int + d) as char
  }

  /** The shortest decimal spelling of `n`. */
  function NatToString(n: nat): (s: string)
    ensures 0 < |s|
    ensures AllDigits(s)
    ensures n < 10 <==> |s| == 1
    decreases n
  {
    if n < 10 then [DigitChar(n)] else NatToString(n / 10) + [DigitChar(n % 10)]
  }

  /** String(n) for an integer: a minus sign before the digits of a negative. */
  function IntToString(n: int): (s: string)
    ensures 0 < |s|
    ensures n < 0 <==> s[0] == '-'
  {
    if n < 0 then "-" + NatToString(-n) else NatToString(n)
  }

  /** The value of a string of decimal digits. */
  function DigitsValue(s: string): nat
    requires AllDigits(s)
    decreases |s|
  {
    if |s| == 0 then 0
    else DigitsValue(s[..|s| - 1]) * 10 + (s[|s| - 1] as int - '0' as int)
  }

  function ParseNat(s: string): Option<nat> {
    if 0 < |s| && AllDigits(s) then Some(DigitsValue(s)) else None
  }

  function ParseInt(s: string): Option<int> {
    if 0 < |s| && s[0] == '-' then
      match ParseNat(s[1..])
      case Some(n) => Some(0 - n as int)
      case None => None
    else ParseNat(s)
  }

  lemma {:induction false} NatRoundTrip(n: nat)
    ensures ParseNat(NatToString(n)) == Some(n)
    decreases n
  {
    var s := NatToString(n);
    if n < 10 {
      assert s[..|s| - 1] == [];
      assert DigitsValue(s[..|s| - 1]) == 0;
      assert s[|s| - 1] as int == '0' as int + n;
    } else {
      NatRoundTrip(n / 10);
      assert s[..|s| - 1] == NatToString(n / 10);
      assert s[|s| - 1] as int == '0' as int + n % 10;
    }
  }

  /** Every integer can be read back from its decimal spelling. */
  lemma IntRoundTrip(n: int)
    ensures ParseInt(IntToString(n)) == Some(n)
  {
    if n < 0 {
      NatRoundTrip(-n);
      assert IntToString(n)[1..] == NatToString(-n);
    } else {
      NatRoundTrip(n);
    }
  }
}

=== FILE: gateway.dfy ===
/** The client's one request path: the HTTP request it builds for an
    endpoint and payload, and how it turns whatever the transport produced
    into either the parsed body or an `AraseAPIError`. The transport itself
    (fetch, the abort timer) is a parameter: a function from the request to
    the outcome it ended in. */
module Gateway {
  import opened Wrappers
  import opened Js
  import Decimal
  import Bearer
  import opened Config

  const Method: string := "POST"
  const ContentType: string := "application/json"
  const TimeoutMessage: string := "Request timeout | انتهت مهلة الطلب"
  const UnknownErrorMessage: string := "Unknown error | خطأ غير معروف"

  /** What V8 says when the client reads `message` of a null error body. */
  const NullBodyMessage: string := "Cannot read properties of null (reading 'message')"

  /** The request handed to fetch. `abortAfter` is the client's timeout as
      handed to `setTimeout`, which arms the request's abort signal; the
      runtime's treatment of that delay is not part of the request. */
  datatype HttpRequest = HttpRequest(
    verb: string,
    url: string,
    headers: seq<(string, string)>,
    body: Wire,
    abortAfter: int)

  /** An `AraseAPIError`. `message` and `code` hold the values handed to its
      constructor, which for an HTTP error are whatever the server's body
      carried when truthy. */
  datatype ApiError = ApiError(message: Json, code: Json, status: int)

  /** A thrown value: an `Error` with its name and message, or anything else. */
  datatype Thrown = ErrorObject(name: string, message: string) | NonError

  /** Reading the response body: the parsed JSON, or the rejection of
      `response.json()`. */
  datatype Body = Parsed(json: Json) | Unreadable(reason: Thrown)

  /** How the fetch ended: with a response, or with fetch rejecting (an
      abort by the timer rejects with an error named "AbortError"). */
  datatype Outcome = Responded(status: int, body: Body) | Rejected(reason: Thrown)

  /** What the `try` block can throw: an error it built itself, or a foreign one. */
  datatype Raised = Api(error: ApiError) | Foreign(thrown: Thrown)

  /** How the `try` block ended. */
  datatype Completion = Returned(value: Json) | Threw(raised: Raised)

  /** `Response.ok`. */
  predicate IsOk(status: int) {
    200 <= status <= 299
  }

  /** The first value of header `name`, if any. */
  function Header(headers: seq<(string, string)>, name: string): Option<string>
    decreases |headers|
  {
    if |headers| == 0 then None
    else if headers[0].0 == name then Some(headers[0].1)
    else Header(headers[1..], name)
  }

  /** The request for `endpoint` carrying `payload`. */
  function BuildRequest(c: Client, endpoint: string, payload: Payload): (r: HttpRequest)
    ensures r.verb == Method
    ensures |r.url| == |c.baseUrl| + |endpoint|
    ensures r.url[..|c.baseUrl|] == c.baseUrl && r.url[|c.baseUrl|..] == endpoint
    ensures |r.headers| == 2
    ensures Header(r.headers, "Content-Type") == Some(ContentType)
    ensures Header(r.headers, "Authorization") == Some(Bearer.Credentials(c.apiKey))
    ensures r.body == Stringify(payload)
    ensures r.abortAfter == c.timeout
  {
    HttpRequest(
      Method,
      c.baseUrl + endpoint,
      [("Content-Type", ContentType), ("Authorization", Bearer.Credentials(c.apiKey))],
      Stringify(payload),
      c.timeout)
  }

  /** The error built for a response that is not ok, from its parsed body
      (an unreadable body is replaced by `{}` before this point). */
  function HttpError(status: int, body: Json): (e: ApiError)
    ensures e.status == status
    ensures Truthy(e.message) && Truthy(e.code)
  {
    var message := OrElseJson(ReadMember(body, "message"), JStr("HTTP " + Decimal.IntToString(status)));
    var code := OrElseJson(ReadMember(body, "code"), JStr("UNKNOWN_ERROR"));
    ApiError(message, code, status)
  }

  /** The `try` block as written. A null error body makes the read of
      `error.message` throw a TypeError. */
  function TryAsWritten(o: Outcome): Completion {
    match o
    case Rejected(t) => Threw(Foreign(t))
    case Responded(status, body) =>
      if IsOk(status) then
        match body
        case Parsed(j) => Returned(j)
        case Unreadable(t) => Threw(Foreign(t))
      else
        match body
        case Unreadable(_) => Threw(Api(HttpError(status, JObj(map[]))))
        case Parsed(j) =>
          if j == JNull then Threw(Foreign(ErrorObject("TypeError", NullBodyMessage)))
          else Threw(Api(HttpError(status, j)))
  }

  /** The `try` block with a null error body read like `{}`. */
  function Try(o: Outcome): Completion {
    match o
    case Rejected(t) => Threw(Foreign(t))
    case Responded(status, body) =>
      if IsOk(status) then
        match body
        case Parsed(j) => Returned(j)
        case Unreadable(t) => Threw(Foreign(t))
      else
        match body
        case Unreadable(_) => Threw(Api(HttpError(status, JObj(map[]))))
        case Parsed(j) => Threw(Api(HttpError(status, j)))
  }

  /** The `catch` block: an error already built by the client passes through
      unchanged, an abort becomes TIMEOUT, anything else NETWORK_ERROR. */
  function Catch(raised: Raised): (e: ApiError)
    ensures raised.Api? ==> e == raised.error
    ensures raised.Foreign? ==> (e.status == 408 <==> raised.thrown.ErrorObject? && raised.thrown.name == "AbortError")
    ensures raised.Foreign? ==> (e.status == 0 || e.status == 408)
  {
    match raised
    case Api(e) => e
    case Foreign(ErrorObject(name, message)) =>
      if name == "AbortError" then ApiError(JStr(TimeoutMessage), JStr("TIMEOUT"), 408)
      else ApiError(JStr(message), JStr("NETWORK_ERROR"), 0)
    case Foreign(NonError) => ApiError(JStr(UnknownErrorMessage), JStr("NETWORK_ERROR"), 0)
  }

  function Settle(c: Completion): Result<Json, ApiError> {
    match c
    case Returned(j) => Success(j)
    case Threw(raised) => Failure(Catch(raised))
  }

  /** `request` as written, on the outcome of its fetch: it succeeds exactly
      on an ok response with a parsed body, which it returns untouched; a
      response that is not ok fails with its own status unless its body is
      JSON `null`, which ends as a network error with status 0. */
  function ClassifyAsWritten(o: Outcome): (r: Result<Json, ApiError>)
    ensures r.Success? <==> o.Responded? && IsOk(o.status) && o.body.Parsed?
    ensures r.Success? ==> r.value == o.body.json
    ensures o.Responded? && !IsOk(o.status) && o.body != Parsed(JNull) ==> r.Failure? && r.error.status == o.status
    ensures o.Responded? && !IsOk(o.status) && o.body == Parsed(JNull) ==>
      r.Failure? && r.error.status == 0 && r.error.code == JStr("NETWORK_ERROR")
    ensures o.Rejected? ==> r.Failure? && (r.error.status == 0 || r.error.status == 408)
  {
    Settle(TryAsWritten(o))
  }

  /** `request` with the null error body read like `{}`: it succeeds exactly
      on an ok response with a parsed body, which it returns untouched, and a
      response that is not ok always fails with that response's status. */
  function Classify(o: Outcome): (r: Result<Json, ApiError>)
    ensures r.Success? <==> o.Responded? && IsOk(o.status) && o.body.Parsed?
    ensures r.Success? ==> r.value == o.body.json
    ensures o.Responded? && !IsOk(o.status) ==> r.Failure? && r.error.status == o.status
    ensures o.Rejected? ==> r.Failure? && (r.error.status == 0 || r.error.status == 408)
  {
    Settle(Try(o))
  }

  /** `r` hands back the body of `answer` exactly when `answer` is an ok
      response whose body could be read. */
  predicate Delivers(r: Result<Json, ApiError>, answer: Outcome) {
    && (r.Success? <==> answer.Responded? && IsOk(answer.status) && answer.body.Parsed?)
    && (r.Success? ==> r.value == answer.body.json)
  }

  /** One call of the client's request path: the result is read off the
      transport's answer to the request built from the client, and an answer
      that is not ok fails with that answer's status. */
  function Send(c: Client, endpoint: string, payload: Payload, transport: HttpRequest -> Outcome): (r: Result<Json, ApiError>)
    ensures Delivers(r, transport(BuildRequest(c, endpoint, payload)))
    ensures var answer := transport(BuildRequest(c, endpoint, payload));
      answer.Responded? && !IsOk(answer.status) ==> r.Failure? && r.error.status == answer.status
  {
    Classify(transport(BuildRequest(c, endpoint, payload)))
  }

  /** The Authorization header names the client's key in the RFC 6750
      form, and the key is read back from it exactly when it is a b64token
      (the client itself never checks). */
  lemma AuthorizationCarriesKey(c: Client, endpoint: string, payload: Payload)
    requires c.apiKey == [] || c.apiKey[0] != ' '
    ensures var h := Header(BuildRequest(c, endpoint, payload).headers, "Authorization");
      h.Some? && Bearer.ParseCredentials(h.value) == (if Bearer.IsB64Token(c.apiKey) then Some(c.apiKey) else None)
  {
    Bearer.CredentialsWellFormedIff(c.apiKey);
  }

  /** A response that is not ok fails with its own status; the message is
      the body's `message` if truthy, else "HTTP <status>", and the code is
      the body's `code` if truthy, else "UNKNOWN_ERROR", each independently. */
  lemma HttpErrorFields(status: int, j: Json)
    requires !IsOk(status)
    ensures var m := ReadMember(j, "message");
      var k := ReadMember(j, "code");
      Classify(Responded(status, Parsed(j))) == Failure(ApiError(
        if m.Some? && Truthy(m.value) then m.value else JStr("HTTP " + Decimal.IntToString(status)),
        if k.Some? && Truthy(k.value) then k.value else JStr("UNKNOWN_ERROR"),
        status))
  {
  }

  /** As written, the same fields for every error body except JSON `null`. */
  lemma HttpErrorFieldsAsWritten(status: int, j: Json)
    requires !IsOk(status)
    requires j != JNull
    ensures var m := ReadMember(j, "message");
      var k := ReadMember(j, "code");
      ClassifyAsWritten(Responded(status, Parsed(j))) == Failure(ApiError(
        if m.Some? && Truthy(m.value) then m.value else JStr("HTTP " + Decimal.IntToString(status)),
        if k.Some? && Truthy(k.value) then k.value else JStr("UNKNOWN_ERROR"),
        status))
  {
  }

  /** The code of an HTTP error depends on the body's `code` member alone,
      and the message on its `message` member alone. */
  lemma FallbacksIndependent(status: int, j1: Json, j2: Json)
    requires !IsOk(status)
    ensures ReadMember(j1, "code") == ReadMember(j2, "code") ==>
      Classify(Responded(status, Parsed(j1))).error.code == Classify(Responded(status, Parsed(j2))).error.code
    ensures ReadMember(j1, "message") == ReadMember(j2, "message") ==>
      Classify(Responded(status, Parsed(j1))).error.message == Classify(Responded(status, Parsed(j2))).error.message
  {
  }

  /** An error body that cannot be read is treated as `{}`: both fields fall
      back, and the status is kept. */
  lemma UnreadableErrorBody(status: int, reason: Thrown)
    requires !IsOk(status)
    ensures Classify(Responded(status, Unreadable(reason))) == Classify(Responded(status, Parsed(JObj(map[]))))
    ensures Classify(Responded(status, Unreadable(reason))) ==
      Failure(ApiError(JStr("HTTP " + Decimal.IntToString(status)), JStr("UNKNOWN_ERROR"), status))
  {
  }

  /** When the body gives no truthy message, the status can be read back
      from the fallback message. */
  lemma FallbackMessageNamesStatus(status: int, j: Json)
    requires !IsOk(status)
    requires !(ReadMember(j, "message").Some? && Truthy(ReadMember(j, "message").value))
    ensures var msg := Classify(Responded(status, Parsed(j))).error.message;
      msg.JStr? && |msg.s| > 5 && msg.s[..5] == "HTTP " && Decimal.ParseInt(msg.s[5..]) == Some(status)
  {
    var msg := Classify(Responded(status, Parsed(j))).error.message;
    assert msg.s[5..] == Decimal.IntToString(status);
    Decimal.IntRoundTrip(status);
  }

  /** An ok response that cannot be read is a network error carrying the
      reading error's message, unless that error is an abort. */
  lemma UnreadableOkBody(status: int, reason: Thrown)
    requires IsOk(status)
    requires !(reason.ErrorObject? && reason.name == "AbortError")
    ensures var e := Classify(Responded(status, Unreadable(reason))).error;
      e.code == JStr("NETWORK_ERROR") && e.status == 0 &&
      e.message == JStr(if reason.ErrorObject? then reason.message else UnknownErrorMessage)
  {
  }

  /** A fetch that rejects: an abort is a timeout with status 408 and a
      fixed message; any other Error is a network error with status 0 and
      that error's message; a thrown non-Error is a network error with the
      fixed unknown-error message. */
  lemma RejectedFetch(reason: Thrown)
    ensures reason.ErrorObject? && reason.name == "AbortError" ==>
      Classify(Rejected(reason)) == Failure(ApiError(JStr(TimeoutMessage), JStr("TIMEOUT"), 408))
    ensures reason.ErrorObject? && reason.name != "AbortError" ==>
      Classify(Rejected(reason)) == Failure(ApiError(JStr(reason.message), JStr("NETWORK_ERROR"), 0))
    ensures reason.NonError? ==>
      Classify(Rejected(reason)) == Failure(ApiError(JStr(UnknownErrorMessage), JStr("NETWORK_ERROR"), 0))
  {
  }

  /** As written, a response that is not ok and whose body is JSON `null`
      loses its status: the read of `error.message` throws a TypeError, and
      the catch block turns it into a network error with status 0. */
  lemma NullErrorBodyAsWritten(status: int)
    requires !IsOk(status)
    ensures ClassifyAsWritten(Responded(status, Parsed(JNull))) ==
      Failure(ApiError(JStr(NullBodyMessage), JStr("NETWORK_ERROR"), 0))
    ensures ClassifyAsWritten(Responded(status, Parsed(JNull))) != Classify(Responded(status, Parsed(JNull)))
  {
  }

  /** The corrected reading gives the null body the same fallbacks as an
      empty object, and differs from the code as written on no other outcome. */
  lemma NullErrorBodyCorrected(o: Outcome)
    ensures o.Responded? && !IsOk(o.status) && o.body == Parsed(JNull) ==>
      Classify(o) == Failure(ApiError(JStr("HTTP " + Decimal.IntToString(o.status)), JStr("UNKNOWN_ERROR"), o.status))
    ensures !(o.Responded? && !IsOk(o.status) && o.body == Parsed(JNull)) ==>
      ClassifyAsWritten(o) == Classify(o)
  {
  }

  /** The result depends on the transport only through its answer to the
      built request: two transports that answer that request alike give the
      same result. */
  lemma DependsOnlyOnBuiltRequest(c: Client, endpoint: string, payload: Payload,
                                  t1: HttpRequest -> Outcome, t2: HttpRequest -> Outcome)
    requires t1(BuildRequest(c, endpoint, payload)) == t2(BuildRequest(c, endpoint, payload))
    ensures Send(c, endpoint, payload, t1) == Send(c, endpoint, payload, t2)
  {
  }
}

=== FILE: js.dfy ===
/** The small part of JavaScript's value semantics the client relies on:
    values produced by JSON.parse, truthiness, the `||` operator on optional
    strings and numbers, member reads on a parsed error body, and the way
    JSON.stringify leaves out members whose value is `undefined`. */
module Js {
  import opened Wrappers

  /** A value JSON.parse can produce. An object is keyed by member name; the
      order of a parsed object's members plays no part in the client. */
  datatype Json =
    | JNull
    | JBool(b: bool)
    | JNum(n: real)
    | JStr(s: string)
    | JArr(items: seq<Json>)
    | JObj(members: map<string, Json>)

  /** ECMAScript ToBoolean on a JSON value (JSON cannot spell NaN). */
  predicate Truthy(v: Json) {
    match v
    case JNull => false
    case JBool(b) => b
    case JNum(n) => n != 0.0
    case JStr(s) => s != ""
    case JArr(_) => true
    case JObj(_) => true
  }

  /** ToBoolean on a string that may be `undefined`. */
  predicate TruthyText(o: Option<string>) {
    o.Some? && o.value != ""
  }

  /** ToBoolean on a number that may be `undefined`. */
  predicate TruthyNumber(o: Option<int>) {
    o.Some? && o.value != 0
  }

  /** `a || b` on two strings that may be `undefined`. */
  function OrText(a: Option<string>, b: Option<string>): Option<string> {
    if TruthyText(a) then a else b
  }

  /** `a || fallback` on a string that may be `undefined`. */
  function OrElseText(a: Option<string>, fallback: string): string {
    if TruthyText(a) then a.value else fallback
  }

  /** `a || fallback` on a number that may be `undefined`. */
  function OrElseNumber(a: Option<int>, fallback: int): int {
    if TruthyNumber(a) then a.value else fallback
  }

  /** `a || fallback` on a JSON value that may be `undefined`. */
  function OrElseJson(a: Option<Json>, fallback: Json): Json {
    if a.Some? && Truthy(a.value) then a.value else fallback
  }

  /** Reads member `name` of a parsed value that is not null. Only an object
      can carry "code" or "message": strings, numbers, booleans and arrays
      have no such property on themselves or on their prototypes, so reading
      it yields `undefined`. (Reading a member of `null` throws, which the
      caller handles before asking.) */
  function ReadMember(v: Json, name: string): Option<Json>
    requires name == "code" || name == "message"
  {
    match v
    case JObj(m) => if name in m then Some(m[name]) else None
    case _ => None
  }

  /** An object as the client writes it: member name to value, where `None`
      is a member whose value is `undefined`. */
  type Payload = map<string, Option<Json>>

  /** The object JSON.stringify writes for a payload. */
  type Wire = map<string, Json>

  /** JSON.stringify on a payload: a member whose value is `undefined` is
      left out, every other member is written with its value unchanged. */
  function Stringify(p: Payload): (w: Wire)
    ensures w.Keys <= p.Keys
    ensures forall k :: k in p ==> (k in w <==> p[k].Some?)
    ensures forall k :: k in w ==> p[k] == Some(w[k])
  {
    map k | k in p && p[k].Some? :: p[k].value
  }
}

=== FILE: options.dfy ===
/** The option records the client accepts. A member that may be omitted is
    an `Option`; `None` is `undefined`. */
module Options {
  import opened Wrappers

  /** What a caller may pass to the client's constructor. */
  datatype ClientOptions = ClientOptions(
    apiKey: Option<string>,
    baseUrl: Option<string>,
    timeout: Option<int>,
    dangerouslyAllowBrowser: Option<bool>)

  /** The constructor's default argument `{}`. */
  const NoClientOptions := ClientOptions(None, None, None, None)

  datatype SearchDepth = Basic | Advanced | Deep

  datatype Topic = General | News | Academic

  /** A latitude/longitude pair, passed through to the server untouched. */
  datatype Location = Location(lat: real, lng: real)

  /** The per-category block `{ summary?: boolean }`. */
  datatype SummaryOption = SummaryOption(summary: Option<bool>)

  /** The nested `options` block of a search. */
  datatype AdvancedOptions = AdvancedOptions(stocks: Option<SummaryOption>, weather: Option<SummaryOption>)

  /** The seventeen options of a search. */
  datatype SearchOptions = SearchOptions(
    searchDepth: Option<SearchDepth>,
    maxResults: Option<int>,
    includeAnswer: Option<bool>,
    includeRawContent: Option<bool>,
    includeImages: Option<bool>,
    includeVideos: Option<bool>,
    includeNews: Option<bool>,
    includeMaps: Option<bool>,
    includePlaces: Option<bool>,
    includeShopping: Option<bool>,
    includeScholar: Option<bool>,
    includeStocks: Option<bool>,
    includeWeather: Option<bool>,
    topic: Option<Topic>,
    maxSteps: Option<int>,
    userLocation: Option<Location>,
    options: Option<AdvancedOptions>)

  /** The default argument `{}` of a search. */
  const NoSearchOptions := SearchOptions(
    None, None, None, None, None, None, None, None, None,
    None, None, None, None, None, None, None, None)

  datatype ExtractOptions = ExtractOptions(includeSummary: Option<bool>)

  /** The options argument of a places search. */
  datatype PlacesOptions = PlacesOptions(maxResults: Option<int>, userLocation: Option<Location>)
}

=== FILE: wire_decode.dfy ===
/** How a server reads the bodies the client posts to its search endpoint:
    a body whose `mode` is "extract" is an extraction, any other a search.
    Reading a search or extraction back out of the body the client wrote
    shows that the payload builders lose nothing, rename each option to a
    key of its own, and leave unset options out. */
module WireDecode {
  import opened Wrappers
  import opened Js
  import opened Options
  import opened Adapters

  /** A request as the server understands it. */
  datatype Call = SearchCall(query: string, options: SearchOptions) | ExtractCall(url: string, extract: ExtractOptions)

  function DecodeBool(j: Json): Option<bool> {
    if j.JBool? then Some(j.b) else None
  }

  function DecodeInt(j: Json): Option<int> {
    if j.JNum? && j.n.Floor as real == j.n then Some(j.n.Floor) else None
  }

  function DecodeDepth(j: Json): Option<SearchDepth> {
    if j == JStr("basic") then Some(Basic)
    else if j == JStr("advanced") then Some(Advanced)
    else if j == JStr("deep") then Some(Deep)
    else None
  }

  function DecodeTopic(j: Json): Option<Topic> {
    if j == JStr("general") then Some(General)
    else if j == JStr("news") then Some(News)
    else if j == JStr("academic") then Some(Academic)
    else None
  }

  function DecodeLocation(j: Json): Option<Location> {
    if j.JObj? && "lat" in j.members && "lng" in j.members
       && j.members["lat"].JNum? && j.members["lng"].JNum?
    then Some(Location(j.members["lat"].n, j.members["lng"].n))
    else None
  }

  /** Member `key` of an object read with `decode`: an absent member is an
      unset option, a member that does not decode fails the whole body. */
  function Member<T>(m: map<string, Json>, key: string, decode: Json -> Option<T>): Option<Option<T>> {
    if key in m then
      match decode(m[key])
      case Some(v) => Some(Some(v))
      case None => None
    else Some(None)
  }

  function DecodeSummary(j: Json): Option<SummaryOption> {
    if j.JObj? then
      var summary :- Member(j.members, "summary", DecodeBool);
      Some(SummaryOption(summary))
    else None
  }

  function DecodeAdvanced(j: Json): Option<AdvancedOptions> {
    if j.JObj? then
      var stocks :- Member(j.members, "stocks", DecodeSummary);
      var weather :- Member(j.members, "weather", DecodeSummary);
      Some(AdvancedOptions(stocks, weather))
    else None
  }

  function DecodeSearch(w: Wire): Option<Call> {
    if "query" in w && w["query"].JStr? then
      var searchDepth :- Member(w, "search_depth", DecodeDepth);
      var maxResults :- Member(w, "max_results", DecodeInt);
      var includeAnswer :- Member(w, "include_answer", DecodeBool);
      var includeRawContent :- Member(w, "include_raw_content", DecodeBool);
      var includeImages :- Member(w, "include_images", DecodeBool);
      var includeVideos :- Member(w, "include_videos", DecodeBool);
      var includeNews :- Member(w, "include_news", DecodeBool);
      var includeMaps :- Member(w, "include_maps", DecodeBool);
      var includePlaces :- Member(w, "include_places", DecodeBool);
      var includeShopping :- Member(w, "include_shopping", DecodeBool);
      var includeScholar :- Member(w, "include_scholar", DecodeBool);
      var includeStocks :- Member(w, "include_stocks", DecodeBool);
      var includeWeather :- Member(w, "include_weather", DecodeBool);
      var topic :- Member(w, "topic", DecodeTopic);
      var maxSteps :- Member(w, "max_steps", DecodeInt);
      var userLocation :- Member(w, "user_location", DecodeLocation);
      var options :- Member(w, "options", DecodeAdvanced);
      Some(SearchCall(w["query"].s, SearchOptions(
        searchDepth, maxResults, includeAnswer, includeRawContent,
        includeImages, includeVideos, includeNews, includeMaps,
        includePlaces, includeShopping, includeScholar, includeStocks,
        includeWeather, topic, maxSteps, userLocation, options)))
    else None
  }

  function DecodeExtract(w: Wire): Option<Call> {
    if "url" in w && w["url"].JStr? then
      var includeSummary :- Member(w, "include_summary", DecodeBool);
      Some(ExtractCall(w["url"].s, ExtractOptions(includeSummary)))
    else None
  }

  /** The server's routing on the shared endpoint. */
  function DecodeRequest(w: Wire): Option<Call> {
    if "mode" in w && w["mode"] == JStr("extract") then DecodeExtract(w) else DecodeSearch(w)
  }

  /** A member written from an optional value by `encode` reads back as that
      value, provided `decode` undoes `encode` on it. */
  lemma MemberRoundTrip<T>(p: Payload, key: string, x: Option<T>, encode: T -> Json, decode: Json -> Option<T>)
    requires key in p && p[key] == MapOption(x, encode)
    requires x.Some? ==> decode(encode(x.value)) == Some(x.value)
    ensures Member(Stringify(p), key, decode) == Some(x)
  {
  }

  /** A count is written as a JSON number and read back unchanged. */
  lemma NumberRoundTrip(n: int)
    ensures DecodeInt(EncodeInt(n)) == Some(n)
  {
  }

  lemma SummaryRoundTrip(s: SummaryOption)
    ensures DecodeSummary(EncodeSummary(s)) == Some(s)
  {
    MemberRoundTrip(map["summary" := MapOption(s.summary, EncodeBool)], "summary", s.summary, EncodeBool, DecodeBool);
  }

  lemma AdvancedRoundTrip(a: AdvancedOptions)
    ensures DecodeAdvanced(EncodeAdvanced(a)) == Some(a)
  {
    if a.stocks.Some? {
      SummaryRoundTrip(a.stocks.value);
    }
    if a.weather.Some? {
      SummaryRoundTrip(a.weather.value);
    }
    var p := map["stocks" := MapOption(a.stocks, EncodeSummary), "weather" := MapOption(a.weather, EncodeSummary)];
    MemberRoundTrip(p, "stocks", a.stocks, EncodeSummary, DecodeSummary);
    MemberRoundTrip(p, "weather", a.weather, EncodeSummary, DecodeSummary);
  }

  /** The search_depth and max_results members read back as their options. */
  lemma SearchMembersDepthAndCount(query: string, o: SearchOptions)
    ensures Member(Stringify(SearchPayload(query, o)), "search_depth", DecodeDepth) == Some(o.searchDepth)
    ensures Member(Stringify(SearchPayload(query, o)), "max_results", DecodeInt) == Some(o.maxResults)
  {
    var p := SearchPayload(query, o);
    if o.maxResults.Some? {
      NumberRoundTrip(o.maxResults.value);
    }
    MemberRoundTrip(p, "search_depth", o.searchDepth, EncodeDepth, DecodeDepth);
    MemberRoundTrip(p, "max_results", o.maxResults, EncodeInt, DecodeInt);
  }

  /** The include_answer and include_raw_content members read back as their options. */
  lemma SearchMembersAnswerAndRaw(query: string, o: SearchOptions)
    ensures Member(Stringify(SearchPayload(query, o)), "include_answer", DecodeBool) == Some(o.includeAnswer)
    ensures Member(Stringify(SearchPayload(query, o)), "include_raw_content", DecodeBool) == Some(o.includeRawContent)
  {
    var p := SearchPayload(query, o);
    MemberRoundTrip(p, "include_answer", o.includeAnswer, EncodeBool, DecodeBool);
    MemberRoundTrip(p, "include_raw_content", o.includeRawContent, EncodeBool, DecodeBool);
  }

  /** Each search member from include_images to include_maps reads back as its option. */
  lemma SearchMembersImagesToMaps(query: string, o: SearchOptions)
    ensures Member(Stringify(SearchPayload(query, o)), "include_images", DecodeBool) == Some(o.includeImages)
    ensures Member(Stringify(SearchPayload(query, o)), "include_videos", DecodeBool) == Some(o.includeVideos)
    ensures Member(Stringify(SearchPayload(query, o)), "include_news", DecodeBool) == Some(o.includeNews)
    ensures Member(Stringify(SearchPayload(query, o)), "include_maps", DecodeBool) == Some(o.includeMaps)
  {
    var p := SearchPayload(query, o);
    MemberRoundTrip(p, "include_images", o.includeImages, EncodeBool, DecodeBool);
    MemberRoundTrip(p, "include_videos", o.includeVideos, EncodeBool, DecodeBool);
    MemberRoundTrip(p, "include_news", o.includeNews, EncodeBool, DecodeBool);
    MemberRoundTrip(p, "include_maps", o.includeMaps, EncodeBool, DecodeBool);
  }

  /** Each search member from include_places to include_stocks reads back as its option. */
  lemma SearchMembersPlacesToStocks(query: string, o: SearchOptions)
    ensures Member(Stringify(SearchPayload(query, o)), "include_places", DecodeBool) == Some(o.includePlaces)
    ensures Member(Stringify(SearchPayload(query, o)), "include_shopping", DecodeBool) == Some(o.includeShopping)
    ensures Member(Stringify(SearchPayload(query, o)), "include_scholar", DecodeBool) == Some(o.includeScholar)
    ensures Member(Stringify(SearchPayload(query, o)), "include_stocks", DecodeBool) == Some(o.includeStocks)
  {
    var p := SearchPayload(query, o);
    MemberRoundTrip(p, "include_places", o.includePlaces, EncodeBool, DecodeBool);
    MemberRoundTrip(p, "include_shopping", o.includeShopping, EncodeBool, DecodeBool);
    MemberRoundTrip(p, "include_scholar", o.includeScholar, EncodeBool, DecodeBool);
    MemberRoundTrip(p, "include_stocks", o.includeStocks, EncodeBool, DecodeBool);
  }

  /** Each search member from include_weather to max_steps reads back as its option. */
  lemma SearchMembersWeatherToSteps(query: string, o: SearchOptions)
    ensures Member(Stringify(SearchPayload(query, o)), "include_weather", DecodeBool) == Some(o.includeWeather)
    ensures Member(Stringify(SearchPayload(query, o)), "topic", DecodeTopic) == Some(o.topic)
    ensures Member(Stringify(SearchPayload(query, o)), "max_steps", DecodeInt) == Some(o.maxSteps)
  {
    var p := SearchPayload(query, o);
    if o.maxSteps.Some? {
      NumberRoundTrip(o.maxSteps.value);
    }
    MemberRoundTrip(p, "include_weather", o.includeWeather, EncodeBool, DecodeBool);
    MemberRoundTrip(p, "topic", o.topic, EncodeTopic, DecodeTopic);
    MemberRoundTrip(p, "max_steps", o.maxSteps, EncodeInt, DecodeInt);
  }

  /** Each search member user_location and options reads back as its option. */
  lemma SearchMembersLocationAndOptions(query: string, o: SearchOptions)
    ensures Member(Stringify(SearchPayload(query, o)), "user_location", DecodeLocation) == Some(o.userLocation)
    ensures Member(Stringify(SearchPayload(query, o)), "options", DecodeAdvanced) == Some(o.options)
  {
    var p := SearchPayload(query, o);
    if o.options.Some? {
      AdvancedRoundTrip(o.options.value);
    }
    MemberRoundTrip(p, "user_location", o.userLocation, EncodeLocation, DecodeLocation);
    MemberRoundTrip(p, "options", o.options, EncodeAdvanced, DecodeAdvanced);
  }

  /** A body whose members each read back as the matching option decodes
      to that search. */
  lemma DecodeSearchFromMembers(w: Wire, query: string, o: SearchOptions)
    requires "query" in w && w["query"] == JStr(query)
    requires Member(w, "search_depth", DecodeDepth) == Some(o.searchDepth)
    requires Member(w, "max_results", DecodeInt) == Some(o.maxResults)
    requires Member(w, "include_answer", DecodeBool) == Some(o.includeAnswer)
    requires Member(w, "include_raw_content", DecodeBool) == Some(o.includeRawContent)
    requires Member(w, "include_images", DecodeBool) == Some(o.includeImages)
    requires Member(w, "include_videos", DecodeBool) == Some(o.includeVideos)
    requires Member(w, "include_news", DecodeBool) == Some(o.includeNews)
    requires Member(w, "include_maps", DecodeBool) == Some(o.includeMaps)
    requires Member(w, "include_places", DecodeBool) == Some(o.includePlaces)
    requires Member(w, "include_shopping", DecodeBool) == Some(o.includeShopping)
    requires Member(w, "include_scholar", DecodeBool) == Some(o.includeScholar)
    requires Member(w, "include_stocks", DecodeBool) == Some(o.includeStocks)
    requires Member(w, "include_weather", DecodeBool) == Some(o.includeWeather)
    requires Member(w, "topic", DecodeTopic) == Some(o.topic)
    requires Member(w, "max_steps", DecodeInt) == Some(o.maxSteps)
    requires Member(w, "user_location", DecodeLocation) == Some(o.userLocation)
    requires Member(w, "options", DecodeAdvanced) == Some(o.options)
    ensures DecodeSearch(w) == Some(SearchCall(query, o))
  {
  }

  /** The server reads back exactly the query and options of a search: no
      option is lost, none lands under another's key, and an unset option
      stays unset. */
  lemma SearchRoundTrip(query: string, o: SearchOptions)
    ensures DecodeRequest(Stringify(SearchPayload(query, o))) == Some(SearchCall(query, o))
  {
    var w := Stringify(SearchPayload(query, o));
    assert "mode" !in w && "query" in w && w["query"] == JStr(query);
    SearchMembersDepthAndCount(query, o);
    SearchMembersAnswerAndRaw(query, o);
    SearchMembersImagesToMaps(query, o);
    SearchMembersPlacesToStocks(query, o);
    SearchMembersWeatherToSteps(query, o);
    SearchMembersLocationAndOptions(query, o);
    DecodeSearchFromMembers(w, query, o);
  }

  /** The server reads back exactly the URL and toggle of an extraction. */
  lemma ExtractRoundTrip(url: string, o: ExtractOptions)
    ensures DecodeRequest(Stringify(ExtractPayload(url, o))) == Some(ExtractCall(url, o))
  {
    MemberRoundTrip(ExtractPayload(url, o), "include_summary", o.includeSummary, EncodeBool, DecodeBool);
  }
}

=== FILE: wire_names.dfy ===
/** The naming rule that turns a camelCase option name into the snake_case
    member name the server expects ("maxResults" becomes "max_results"), and
    its inverse. */
module WireNames {

  predicate IsUpper(c: char) {
    'A' <= c <= 'Z'
  }

  predicate IsLower(c: char) {
    'a' <= c <= 'z'
  }

  function ToLower(c: char): (r: char)
    requires IsUpper(c)
    ensures IsLower(r)
  {
    (c as int + 32) as char
  }

  function ToUpper(c: char): (r: char)
    requires IsLower(c)
    ensures IsUpper(r)
  {
    (c as int - 32) as char
  }

  /** Each capital letter becomes '_' followed by its lower-case form. */
  function SnakeCase(name: string): (key: string)
    ensures |name| <= |key|
    ensures forall i :: 0 <= i < |key| ==> !IsUpper(key[i])
    decreases |name|
  {
    if |name| == 0 then []
    else if IsUpper(name[0]) then ['_', ToLower(name[0])] + SnakeCase(name[1..])
    else [name[0]] + SnakeCase(name[1..])
  }

  /** Each '_' followed by a lower-case letter becomes that letter's capital. */
  function CamelCase(key: string): string
    decreases |key|
  {
    if |key| == 0 then []
    else if 2 <= |key| && key[0] == '_' && IsLower(key[1]) then [ToUpper(key[1])] + CamelCase(key[2..])
    else [key[0]] + CamelCase(key[1..])
  }

  /** A name without underscores is recovered from its wire key, so the
      renaming loses nothing. */
  lemma {:induction false} CamelSnakeRoundTrip(name: string)
    requires forall i :: 0 <= i < |name| ==> name[i] != '_'
    ensures CamelCase(SnakeCase(name)) == name
    decreases |name|
  {
    if |name| != 0 {
      var key := SnakeCase(name);
      CamelSnakeRoundTrip(name[1..]);
      if IsUpper(name[0]) {
        assert key[2..] == SnakeCase(name[1..]);
        assert ToUpper(ToLower(name[0])) == name[0];
      } else {
        assert key[1..] == SnakeCase(name[1..]);
      }
      assert name == [name[0]] + name[1..];
    }
  }

  /** Two names without underscores never share a wire key. */
  lemma {:induction false} SnakeCaseInjective(a: string, b: string)
    requires forall i :: 0 <= i < |a| ==> a[i] != '_'
    requires forall i :: 0 <= i < |b| ==> b[i] != '_'
    requires SnakeCase(a) == SnakeCase(b)
    ensures a == b
  {
    CamelSnakeRoundTrip(a);
    CamelSnakeRoundTrip(b);
  }

  /** Walks `name` from `i` and `key` from `j` together, checking that the
      rest of `key` is the snake_case image of the rest of `name`. */
  predicate SnakeMatch(name: string, i: nat, key: string, j: nat)
    requires i <= |name| && j <= |key|
    decreases |name| - i
  {
    if i == |name| then j == |key|
    else if IsUpper(name[i]) then
      j + 1 < |key| && key[j] == '_' && key[j + 1] == ToLower(name[i]) && SnakeMatch(name, i + 1, key, j + 2)
    else j < |key| && key[j] == name[i] && SnakeMatch(name, i + 1, key, j + 1)
  }

  /** The lock-step walk agrees with SnakeCase. */
  lemma {:induction false} SnakeMatchIff(name: string, i: nat, key: string, j: nat)
    requires i <= |name| && j <= |key|
    ensures SnakeMatch(name, i, key, j) <==> key[j..] == SnakeCase(name[i..])
    decreases |name| - i
  {
    if i < |name| {
      var rest := SnakeCase(name[i + 1..]);
      assert name[i..][1..] == name[i + 1..];
      if IsUpper(name[i]) {
        SnakeMatchIff(name, i + 1, key, if j + 2 <= |key| then j + 2 else |key|);
        if j + 1 < |key| {
          assert key[j..] == [key[j], key[j + 1]] + key[j + 2..];
        }
      } else {
        SnakeMatchIff(name, i + 1, key, if j + 1 <= |key| then j + 1 else |key|);
        if j < |key| {
          assert key[j..] == [key[j]] + key[j + 1..];
        }
      }
    }
  }
}

=== FILE: wrappers.dfy ===
/** Optional values and success-or-error results, used in place of
    JavaScript's `undefined` and of thrown exceptions. Both may be used with
    `:-` in expressions. */
module Wrappers {

  /** A value that may be absent; `None` plays the part of `undefined`. */
  datatype Option<+T> = None | Some(value: T) {

    predicate IsFailure() {
      None?
    }

    function PropagateFailure<U>(): Option<U>
      requires None?
    {
      None
    }

    function Extract(): T
      requires Some?
    {
      value
    }

    /** The value if present, `default` otherwise. */
    function GetOr(default: T): T {
      match this
      case Some(v) => v
      case None => default
    }
  }

  /** Applies `f` under `Some`, leaving `None` alone. */
  function MapOption<T, U>(o: Option<T>, f: T -> U): Option<U> {
    match o
    case Some(v) => Some(f(v))
    case None => None
  }

  /** The outcome of an operation that either returns a value or fails. */
  datatype Result<+R, +E> = Success(value: R) | Failure(error: E) {

    predicate IsFailure() {
      Failure?
    }

    function PropagateFailure<U>(): Result<U, E>
      requires Failure?
    {
      Failure(error)
    }

    function Extract(): R
      requires Success?
    {
      value
    }
  }
}
